=== FILE: README.md ===
# PlayerManager of mlbcli, modelled in Dafny

mlbcli is a thin client for the MLB statistics web API
(`https://statsapi.mlb.com/api/v1`). Its one component with logic is
`PlayerManager`. It has seven operations: `search`, `get`, `getSeasonStats`,
`getCareerStats`, `getGameStats`, `getFreeAgents` and `getChanges`. Each one
does the same five things:

1. checks its arguments in a fixed order and throws the first failing check's code;
2. builds one request URL from the base URL, the version segment and the validated arguments;
3. issues a GET request;
4. turns a failed request into the operation's own error code, except in two places where it does not;
5. reads part of the JSON body and returns it unchanged.

The model makes each operation a total, pure function. Its inputs are the
caller's arguments, the transport handle (base URL and version) and the
outcome of each HTTP request: a parsed body or a transport error. `getChanges`
also takes the clock reading as an input. Each operation returns a
`Call(requests, outcome)`:

- `requests` lists the URLs the operation asked for, in order. So "every check runs before any request" becomes `requests == []`.
- `outcome` is the returned value or the thrown `Exception`. An `Exception` is one of:
  - the manager's own code (`Raised`);
  - the HTTP client's error, passed through unwrapped (`Transport`);
  - the engine's own `TypeError` (`EngineTypeError`). This is what JavaScript throws when the code reads a property of `undefined` or `null`, or calls something that is not a function.

Modules, in dependency order:

- `Wrappers`: `Option` and `Result`.
- `Text`: ASCII `toLowerCase`, `includes`, and the decimal text of integers.
- `Errors`: the error codes, their error classes, and the `Exception` type.
- `JsValues`: the dynamic argument values (`VUndefined`, `VNull`, `VBool`, `VNum`, `VNaN`, `VStr`, `VDate`, `VOther`). It also holds `typeof`, truthiness and template-literal text for numbers.
- `Json`: response bodies, plus the JavaScript property read `v[key]`. That read throws on `undefined` and `null`, and arrays and strings answer `length` and their index names.
- `Api`: the transport handle (base URL and version segment).
- `Checks`: the shared validation routine. It takes an ordered list of `(passes, code)` checks and returns the code of the first check that fails.
- `PlayerManager`: the check list of each operation, the validators, the URLs, body extraction, the search filter and the seven operations.
- `PlayerManagerProofs`: properties that relate several calls:
  - the search keeps players in order and ignores the keyword's case;
  - career statistics run a prefix of the season-statistics checks;
  - the season rule is shared between operations, and the accepted seasons are exactly the years 0000–9999;
  - each request URL determines the validated arguments it was built from: the player id, the statistics group, the season, the game pk or the date's ISO text.

The model follows the code, also where the code departs from its own JSDoc or from what its error codes suggest:

- `INVALID_TYPE` is thrown as a `TypeError`, although the JSDoc says `Error`.
- In `getSeasonStats`, `SEASON_NOT_STRING` is thrown as a `TypeError`, although the JSDoc says `Error`.
- `get` returns `undefined` when `people` is an empty list. It does not throw.
- The season- and career-statistics operations test `stats` for truthiness. So an empty `stats` list is returned, not refused.
- `search` and the second request of `getGameStats` have no `catch`, so a transport failure reaches the caller unwrapped.
- The `catch` around `getGameStats`'s call of `get` turns every failure of that call into `PLAYER_NOT_FOUND`. This includes an engine `TypeError` caused by a malformed body.
- An empty search keyword is contained in every string. It therefore selects every player that has at least one field. It does not select nothing.
- `getChanges` never throws for an empty result, although its JSDoc lists that case.
- `getChanges` has no check for an invalid date, although its JSDoc lists that case. An invalid `Date` passes the future check, because `NaN > Date.now()` is false. `toISOString()` then throws the engine's `RangeError` while the URL is built, before any request and outside the `catch`. The model does not represent invalid dates (see "## Left out").
- If the body lists no people, the season- and career-statistics operations throw the engine's `TypeError` when they read `stats` of `undefined`. They do not throw `PLAYER_NOT_FOUND`.

## Model

| member | source | states |
|---|---|---|
| Checks.FirstFailure | lib/managers/PlayerManager.js:593-598 | the chain yields no code iff every check passes, and otherwise the code of the first failing check, whatever the later checks say |
| Checks.FirstFailureAppend | lib/managers/PlayerManager.js:593-598 | a chain that extends another fails with the shorter chain's code whenever the shorter one fails, and otherwise with the code of its own further checks |
| JsValues.FalsyValues | lib/managers/PlayerManager.js:593 | `!x` holds for exactly undefined, null, false, 0, NaN and the empty string (the same test at lines 600, 621 and 700) |
| PlayerManager.ValidateGet | lib/managers/PlayerManager.js:570 | a non-number id gives ID_NOT_NUMBER; any number, NaN included, is accepted and rendered as its URL text |
| PlayerManager.ValidateCareerStats | lib/managers/PlayerManager.js:621-624 | the checks apply in order: a falsy type gives NO_TYPE_GIVEN even when the id is bad; then ID_NOT_NUMBER, then TYPE_NOT_STRING; any non-empty string other than hitting/pitching/fielding gives INVALID_TYPE; exactly those three names pass |
| PlayerManager.ValidateSeasonStats | lib/managers/PlayerManager.js:592-598 | the same four checks, then SEASON_NOT_STRING, then INVALID_SEASON; an omitted (undefined) season becomes "2022", but null does not; success carries the id text, the type and the season |
| PlayerManager.ValidateGameStats | lib/managers/PlayerManager.js:648-649 | ID_NOT_NUMBER is checked before GAME_PK_NOT_NUMBER; two numbers pass |
| PlayerManager.ValidateFreeAgents | lib/managers/PlayerManager.js:677-679 | an omitted season defaults to "2022"; a non-string gives SEASON_NOT_STRING; a string that is not four ASCII digits gives INVALID_SEASON |
| PlayerManager.ValidateChanges | lib/managers/PlayerManager.js:700-702 | a falsy date gives NO_DATE_GIVEN, a non-Date gives DATE_NOT_DATE, a time strictly after now gives DATE_IN_FUTURE; a time equal to now is accepted |
| PlayerManager.FirstPerson | lib/managers/PlayerManager.js:576 | reading `people[0]` throws exactly when the body is null or has no (or a null) `people`; for a list it gives the first entry, or undefined when the list is empty |
| PlayerManager.FirstPersonStats | lib/managers/PlayerManager.js:605-607 | the first person's `stats` is returned unchanged when truthy, and STATS_NOT_FOUND when falsy or missing, also for a first entry that is a number, string or list; an engine TypeError when there is no first person or the first entry is null; a returned value is never falsy |
| PlayerManager.SplitsTest | lib/managers/PlayerManager.js:662 | `s.splits?.length > 0` throws only for a null element and otherwise agrees with the structural predicate HasSplits |
| PlayerManager.CountWithSplits | lib/managers/PlayerManager.js:660-663 | the forEach counter throws iff some element is null; otherwise it is at most the list length and is zero iff no element has non-empty splits |
| PlayerManager.GameStatsOf | lib/managers/PlayerManager.js:658-667 | a stats list with a null element throws the engine TypeError (`s.splits` of null); for a stats list without null elements: STATS_NOT_FOUND iff the list is empty or no element has non-empty splits (a missing splits counts as empty), else the list itself; a missing stats throws; a returned value is the body's stats list and holds an element with splits |
| PlayerManager.FilterPlayers | lib/managers/PlayerManager.js:549-559 | the nested loops with `break` compute exactly the reference filter Matching: the players that have a field whose lower-cased text contains the lower-cased keyword, in list order |
| PlayerManager.Search | lib/managers/PlayerManager.js:545-560 | a non-string keyword gives KEYWORD_NOT_STRING with no request; otherwise one request to the player list; a transport error propagates unwrapped; a body without people gives no players |
| PlayerManager.Get | lib/managers/PlayerManager.js:569-577 | no request iff an argument check failed; otherwise one request to `people/<id>`; a transport failure becomes PLAYER_NOT_FOUND; the transport error never reaches the caller |
| PlayerManager.GetSeasonStats | lib/managers/PlayerManager.js:592-608 | no request iff an argument check failed, and then the validator's code; otherwise one request to the hydrate URL; a transport failure becomes PLAYER_NOT_FOUND; success is the first person's stats |
| PlayerManager.GetCareerStats | lib/managers/PlayerManager.js:620-634 | no request iff an argument check failed; otherwise one request to the career hydrate URL; a transport failure becomes PLAYER_NOT_FOUND; success is the first person's stats |
| PlayerManager.GetGameStats | lib/managers/PlayerManager.js:647-668 | no request iff an argument check failed; the player URL is requested first; any failure of that `get` gives PLAYER_NOT_FOUND and no second request, and a successful `get` is always followed by the game statistics request; a failed stats request propagates unwrapped, and that is the only way a transport error gets out |
| PlayerManager.GetFreeAgents | lib/managers/PlayerManager.js:677-687 | no request iff an argument check failed; otherwise one request to `people/freeAgents?season=<season>`; a transport failure becomes FREE_AGENTS_NOT_FOUND; success is the body's `freeAgents` (undefined when missing); a null body throws the engine TypeError |
| PlayerManager.GetChanges | lib/managers/PlayerManager.js:699-710 | no request iff an argument check failed; otherwise one request to `people/changes?updatedSince=<ISO text>`; a transport failure becomes CHANGES_NOT_FOUND; success is the body's `people`; a null body throws the engine TypeError |
| PlayerManagerProofs.GameStatsExamples | lib/managers/PlayerManager.js:658-667 | `{stats: [{splits: []}]}` gives STATS_NOT_FOUND and `{stats: [{splits: [{}]}]}` gives back its stats list |
| PlayerManagerProofs.MatchIndicesAscending | lib/managers/PlayerManager.js:549-557 | the positions the search keeps are strictly ascending, in range, and hold matching players, so no position is added twice |
| PlayerManagerProofs.MatchIndicesComplete | lib/managers/PlayerManager.js:550-555 | every matching player's position is kept |
| PlayerManagerProofs.MatchingAtIndices | lib/managers/PlayerManager.js:553 | the search result is the player list read at the kept positions, one entry per position |
| PlayerManagerProofs.MatchingIsOrderedSelection | lib/managers/PlayerManager.js:549-559 | the search keeps exactly the matching players, in original order, each position at most once |
| PlayerManagerProofs.SearchIgnoresCase | lib/managers/PlayerManager.js:552 | a keyword and its lower-cased form select the same players |
| PlayerManagerProofs.EmptyKeywordMatchesAnyField | lib/managers/PlayerManager.js:552 | a player matches the empty keyword iff it has at least one field |
| PlayerManagerProofs.CareerChecksArePrefix | lib/managers/PlayerManager.js:593-596 | when the career checks fail, season statistics fail with the same code for every season; when they pass, season statistics fail only on the season |
| PlayerManagerProofs.SeasonRuleShared | lib/managers/PlayerManager.js:678-679 | with a valid id and type, season statistics and free agents accept the same seasons and refuse the others with the same code |
| PlayerManagerProofs.SeasonsAreYears | lib/managers/PlayerManager.js:598 | the season pattern accepts exactly the four-digit, zero-padded renderings of the years 0 to 9999 |
| PlayerManagerProofs.OmittedSeasonIs2022 | lib/managers/PlayerManager.js:677 | `SeasonOrDefault`, the default parameter `season = '2022'` (also at line 592): an omitted season validates as "2022" in both operations with that default |
| PlayerManagerProofs.NumberTextInjective | lib/managers/PlayerManager.js:571 | two numbers with the same URL text are equal |
| PlayerManagerProofs.PlayerUrlInjective | lib/managers/PlayerManager.js:571 | `PlayerUrl`: the `people/<id>` URL determines the id |
| PlayerManagerProofs.GameStatsUrlInjective | lib/managers/PlayerManager.js:656 | `GameStatsUrl`: the game statistics URL determines both the player id and the game pk |
| PlayerManagerProofs.SeasonStatsUrlInjective | lib/managers/PlayerManager.js:600 | `SeasonStatsUrl`: for validated arguments the season statistics URL determines the id, the statistics group and the (defaulted) season |
| PlayerManagerProofs.CareerStatsUrlInjective | lib/managers/PlayerManager.js:626 | `CareerStatsUrl`: for validated arguments the career statistics URL determines the id and the statistics group |
| PlayerManagerProofs.FreeAgentsUrlInjective | lib/managers/PlayerManager.js:681 | `FreeAgentsUrl`: the free agents URL determines the season |
| PlayerManagerProofs.ChangesUrlInjective | lib/managers/PlayerManager.js:704 | `ChangesUrl`: the changes URL determines the date's ISO text |
| PlayerManagerProofs.DefaultPlayersUrl | lib/Api.js:5-7 | `PlayersUrl`: with the default base and version, the search requests `https://statsapi.mlb.com/api/v1/sports/1/players` |
| PlayerManagerProofs.SeasonStatsUrlNamesSeason | lib/managers/PlayerManager.js:600 | `SeasonStatsUrl`: for validated arguments the season template always takes its `season=<season>` branch and never the empty one |
| Json.Prop | lib/managers/PlayerManager.js:576 | a property read throws exactly on undefined or null; objects give their field or undefined; arrays give the element at a canonical index name |
| Text.NatText | lib/managers/PlayerManager.js:571 | the decimal text of a natural number is all digits, has no leading zero and reads back as the same number |
| Text.IntText | lib/managers/PlayerManager.js:571 | the template text of an integer has no `/` and no `?`, starts with `-` iff the integer is negative, and reads back as the integer |
| Text.Lower | lib/managers/PlayerManager.js:552 | lower-casing keeps the length and lower-cases each character |
| JsValues.NumberText | lib/managers/PlayerManager.js:571 | the URL text of a number is non-empty and has neither `/` nor `?` |
| Errors.ClassOf | lib/managers/PlayerManager.js:546-706 | KEYWORD_NOT_STRING, ID_NOT_NUMBER, TYPE_NOT_STRING, INVALID_TYPE, SEASON_NOT_STRING, GAME_PK_NOT_NUMBER and DATE_NOT_DATE are thrown with the library's `TypeError`; NO_TYPE_GIVEN, INVALID_SEASON, NO_DATE_GIVEN, DATE_IN_FUTURE and every not-found code with the library's `Error`; exactly the transport failures carry the HTTP client's error, and exactly the engine failures the built-in `TypeError` |
| Errors.CodeNamesDistinct | lib/managers/PlayerManager.js:546-706 | no two error codes are constructed with the same code string |
| Errors.NotFoundNames | lib/managers/PlayerManager.js:573-706 | the codes thrown after a request are exactly those whose code string ends in `_NOT_FOUND` |

## Left out

- The HTTP client (axios) and the `Api` base class (lib/Api.js) are not modelled. Only `base` and `version` are kept, as `Api.Handle`, with the same defaults. Each request's outcome is an input.
- Async/await is not modelled. Each operation is a pure function, so calling it twice with the same arguments and the same responses gives the same result.
- lib/index.js is not part of this model. It defines the custom `Error`/`TypeError` classes. The model keeps only the code and which class it is thrown with (`Errors.ClassOf`), not the message text.
- The type catalog in lib/typings/index.d.ts is not modelled. Nor are the JSDoc typedefs. Payloads are passed through as `Json` values.
- test/getSeasonStats.test.js is not modelled: it calls the live API and asserts nothing.
- Search: each player arrives already reduced to the string forms of its field values, in `Object.values` order. These JavaScript details are not modelled:
  - the `toString` of nested objects and arrays;
  - the `TypeError` that a null field value would raise;
  - the `TypeError` that a null entry of `people` (as in `{people: [null]}`) would raise in `Object.values`;
  - a `people` value that is an object or a string;
  - a null body, on which reading `people` throws.
- `toLowerCase` is ASCII-only. Unicode case mapping is not modelled.
- Numbers are integral, plus `NaN`. Fractional numbers and `Infinity` pass every check the way non-zero integers do. Only their URL text would differ.
- Text.IntText: writes every digit of the integer. JavaScript writes a number of magnitude 10^21 or more in exponent notation (`1e+21`), so for such ids and game pks the model's URL text differs from the real one. Doubles that large are not exact integers, and real ids are far below that bound.
- JsValues.NumberText: inherits the same limit from `Text.IntText`; its text matches a template literal only for magnitudes below 10^21.
- BigInt and Symbol arguments are not modelled.
- A `Date` carries its `getTime()` and its `toISOString()` text. Invalid (NaN) dates are not modelled, and the ISO text is not computed. `Date.now()` is the `now` parameter.
- JSON numbers in bodies are integers. Duplicate keys are not modelled. Properties inherited from prototypes are not modelled, but none of the names read here (`people`, `stats`, `splits`, `freeAgents`, `length`, `0`) is one. String length counts characters, not UTF-16 code units.
- PlayerManager.SplitsTest: when a `splits` object has its own `length` key that holds a string, an array or an object, the model counts it as not greater than zero. JavaScript would convert that value with ToNumber first.

=== FILE: api.dfy ===
/** The transport handle every manager shares: where requests go. */
module Api {

  /** The base URL and the API version segment; the HTTP function itself is a parameter of each call. */
  datatype Handle = Handle(base: string, version: string)

  const DefaultHandle := Handle("https://statsapi.mlb.com/api", "v1")

  /** Every request URL starts with the base URL and the version segment. */
  function Root(api: Handle): string {
    api.base + "/" + api.version + "/"
  }

  function Endpoint(api: Handle, path: string): string {
    Root(api) + path
  }
}

=== FILE: checks.dfy ===
/**
 * The argument-validation routine every manager operation shares: an ordered
 * list of checks, evaluated front to back, the first failing one deciding the
 * error code.
 */
module Checks {
  import opened Wrappers
  import opened Errors

  /** One `if (!passes) throw code` line. */
  datatype Check = Check(passes: bool, code: Code)

  /** Check `i` is the first one that fails. */
  predicate FailsFirstAt(checks: seq<Check>, i: int) {
    0 <= i < |checks| && !checks[i].passes && forall j :: 0 <= j < i ==> checks[j].passes
  }

  /** The code of the first failing check, or None when every check passes. */
  function FirstFailure(checks: seq<Check>): (r: Option<Code>)
    ensures r.None? <==> forall i :: 0 <= i < |checks| ==> checks[i].passes
    ensures r.Some? ==> exists i :: FailsFirstAt(checks, i) && checks[i].code == r.value
    ensures forall i :: FailsFirstAt(checks, i) ==> r == Some(checks[i].code)
  {
    if |checks| == 0 then None
    else if !checks[0].passes then
      assert FailsFirstAt(checks, 0);
      Some(checks[0].code)
    else
      var rest := FirstFailure(checks[1..]);
      assert forall i :: FailsFirstAt(checks, i) ==> i >= 1 && FailsFirstAt(checks[1..], i - 1);
      if rest.Some? then
        var i :| FailsFirstAt(checks[1..], i) && checks[1..][i].code == rest.value;
        assert FailsFirstAt(checks, i + 1);
        rest
      else
        assert forall i :: 1 <= i < |checks| ==> checks[1..][i - 1] == checks[i];
        rest
  }

  /**
   * Running a chain that extends another: the extension fails with the
   * shorter chain's code whenever the shorter one fails, and otherwise with
   * the code of its own further checks.
   */
  lemma {:induction false} FirstFailureAppend(a: seq<Check>, b: seq<Check>)
    ensures FirstFailure(a + b) == if FirstFailure(a).Some? then FirstFailure(a) else FirstFailure(b)
  {
    if |a| == 0 {
      assert a + b == b;
    } else {
      assert (a + b)[1..] == a[1..] + b;
      FirstFailureAppend(a[1..], b);
    }
  }
}

=== FILE: errors.dfy ===
/** The error codes the player manager raises and the other ways a call can fail. */
module Errors {

  /** The first argument of every `new Error(...)` / `new TypeError(...)` in the manager. */
  datatype Code =
    | KeywordNotString
    | IdNotNumber
    | NoTypeGiven
    | TypeNotString
    | InvalidType
    | SeasonNotString
    | InvalidSeason
    | GamePkNotNumber
    | NoDateGiven
    | DateNotDate
    | DateInFuture
    | PlayerNotFound
    | StatsNotFound
    | FreeAgentsNotFound
    | ChangesNotFound

  /** The code string each error is constructed with; no two codes share one. */
  function CodeName(c: Code): (name: string)
    ensures |name| > 0
  {
    match c
    case KeywordNotString => "KEYWORD_NOT_STRING"
    case IdNotNumber => "ID_NOT_NUMBER"
    case NoTypeGiven => "NO_TYPE_GIVEN"
    case TypeNotString => "TYPE_NOT_STRING"
    case InvalidType => "INVALID_TYPE"
    case SeasonNotString => "SEASON_NOT_STRING"
    case InvalidSeason => "INVALID_SEASON"
    case GamePkNotNumber => "GAME_PK_NOT_NUMBER"
    case NoDateGiven => "NO_DATE_GIVEN"
    case DateNotDate => "DATE_NOT_DATE"
    case DateInFuture => "DATE_IN_FUTURE"
    case PlayerNotFound => "PLAYER_NOT_FOUND"
    case StatsNotFound => "STATS_NOT_FOUND"
    case FreeAgentsNotFound => "FREE_AGENTS_NOT_FOUND"
    case ChangesNotFound => "CHANGES_NOT_FOUND"
  }

  /** Codes raised by an argument check, before any request is made. */
  predicate IsArgumentCode(c: Code) {
    !(c.PlayerNotFound? || c.StatsNotFound? || c.FreeAgentsNotFound? || c.ChangesNotFound?)
  }

  /** Why the HTTP client rejected a request: a non-success status or no response at all. */
  datatype TransportError = HttpStatus(status: int) | NoResponse

  /** Everything a manager call can throw. */
  datatype Exception =
    | Raised(code: Code)              // the manager's own error
    | Transport(cause: TransportError) // the HTTP client's error, passed through unwrapped
    | EngineTypeError                  // the engine's TypeError: a property read of undefined/null, or a call of a non-function

  /**
   * The class of a thrown value. `Error` and `TypeError` are the library's
   * own classes (defined in lib/index.js, which is not part of this model);
   * `HttpClientError` is whatever the HTTP client rejects with, and
   * `BuiltinTypeError` is the engine's own `TypeError`.
   */
  datatype ErrorClass = Error | TypeError | HttpClientError | BuiltinTypeError

  /**
   * Which class a call throws with: the type checks throw the library's
   * `TypeError`, and so does the group-name check; the checks of a missing or
   * out-of-range value and every not-found code throw the library's `Error`.
   */
  function ClassOf(e: Exception): (k: ErrorClass)
    ensures e.Raised? ==>
      (k == TypeError <==> e.code in {KeywordNotString, IdNotNumber, TypeNotString, InvalidType,
                                      SeasonNotString, GamePkNotNumber, DateNotDate})
    ensures e.Raised? && !IsArgumentCode(e.code) ==> k == Error
    ensures e.Raised? && e.code in {NoTypeGiven, InvalidSeason, NoDateGiven, DateInFuture} ==> k == Error
    ensures e.Transport? <==> k == HttpClientError
    ensures e.EngineTypeError? <==> k == BuiltinTypeError
  {
    match e
    case Raised(c) =>
      if c.KeywordNotString? || c.IdNotNumber? || c.TypeNotString? || c.InvalidType?
         || c.SeasonNotString? || c.GamePkNotNumber? || c.DateNotDate?
      then TypeError
      else Error
    case Transport(_) => HttpClientError
    case EngineTypeError => BuiltinTypeError
  }

  /** Distinct codes have distinct names, so a caller can tell every error apart by its code string. */
  lemma CodeNamesDistinct(a: Code, b: Code)
    requires CodeName(a) == CodeName(b)
    ensures a == b
  {
  }

  /** A name ends in `_NOT_FOUND`. */
  predicate NamedNotFound(name: string) {
    |name| >= 10 && name[|name| - 10..] == "_NOT_FOUND"
  }

  /** The four codes raised after a request are exactly the ones whose name ends in `_NOT_FOUND`. */
  lemma NotFoundNames(c: Code)
    ensures !IsArgumentCode(c) <==> NamedNotFound(CodeName(c))
  {
    if IsArgumentCode(c) {
      ArgumentCodeName(c);
    } else {
      NotFoundCodeName(c);
    }
  }

  lemma ArgumentCodeName(c: Code)
    requires IsArgumentCode(c)
    ensures !NamedNotFound(CodeName(c))
  {
    match c
    case KeywordNotString => NamedOtherwise("KEYWORD_NOT_STRING", 0);
    case IdNotNumber => NamedOtherwise("ID_NOT_NUMBER", 0);
    case NoTypeGiven => NamedOtherwise("NO_TYPE_GIVEN", 0);
    case TypeNotString => NamedOtherwise("TYPE_NOT_STRING", 0);
    case InvalidType => NamedOtherwise("INVALID_TYPE", 0);
    case SeasonNotString => NamedOtherwise("SEASON_NOT_STRING", 0);
    case InvalidSeason => NamedOtherwise("INVALID_SEASON", 0);
    case GamePkNotNumber => NamedOtherwise("GAME_PK_NOT_NUMBER", 0);
    case NoDateGiven => NamedOtherwise("NO_DATE_GIVEN", 0);
    case DateNotDate => NamedOtherwise("DATE_NOT_DATE", 0);
    case DateInFuture => NamedOtherwise("DATE_IN_FUTURE", 1);
  }

  lemma NotFoundCodeName(c: Code)
    requires !IsArgumentCode(c)
    ensures NamedNotFound(CodeName(c))
  {
    match c
    case PlayerNotFound => assert CodeName(c) == "PLAYER" + "_NOT_FOUND"; EndsNotFound("PLAYER");
    case StatsNotFound => assert CodeName(c) == "STATS" + "_NOT_FOUND"; EndsNotFound("STATS");
    case FreeAgentsNotFound => assert CodeName(c) == "FREE_AGENTS" + "_NOT_FOUND"; EndsNotFound("FREE_AGENTS");
    case ChangesNotFound => assert CodeName(c) == "CHANGES" + "_NOT_FOUND"; EndsNotFound("CHANGES");
  }

  lemma EndsNotFound(subject: string)
    ensures NamedNotFound(subject + "_NOT_FOUND")
  {
    assert (subject + "_NOT_FOUND")[|subject|..] == "_NOT_FOUND";
  }

  lemma NamedOtherwise(name: string, j: int)
    requires 0 <= j < 10 && |name| >= 10 && name[|name| - 10 + j] != "_NOT_FOUND"[j]
    ensures !NamedNotFound(name)
  {
    assert name[|name| - 10..][j] == name[|name| - 10 + j];
  }
}

=== FILE: js_values.dfy ===
/** The dynamic JavaScript values a caller can pass as an argument. */
module JsValues {
  import opened Text

  datatype Value =
    | VUndefined
    | VNull
    | VBool(b: bool)
    | VNum(n: int)                  // a finite integral number
    | VNaN
    | VStr(s: string)
    | VDate(time: int, iso: string) // a valid Date: its getTime() and its toISOString() text
    | VOther                        // any other object, array or function

  /** JavaScript truthiness: undefined, null, false, 0, NaN and "" are falsy. */
  predicate Truthy(v: Value) {
    match v
    case VUndefined => false
    case VNull => false
    case VBool(b) => b
    case VNum(n) => n != 0
    case VNaN => false
    case VStr(s) => s != ""
    case VDate(_, _) => true
    case VOther => true
  }

  /** ToBoolean in section 7.1.2 of ECMA-262: exactly these six values are falsy. */
  lemma FalsyValues(v: Value)
    ensures !Truthy(v) <==> v in {VUndefined, VNull, VBool(false), VNum(0), VNaN, VStr("")}
  {
  }

  /** `typeof v === 'number'` */
  predicate IsNumber(v: Value) {
    v.VNum? || v.VNaN?
  }

  /** `typeof v === 'string'` */
  predicate IsString(v: Value) {
    v.VStr?
  }

  /** `typeof v === 'object' && v instanceof Date` */
  predicate IsDate(v: Value) {
    v.VDate?
  }

  /** A number as a template literal renders it (plain digits; see `IntText` for the range). */
  function NumberText(v: Value): (s: string)
    requires IsNumber(v)
    ensures |s| > 0 && '/' !in s && '?' !in s
  {
    match v
    case VNaN => "NaN"
    case VNum(n) => IntText(n)
  }
}

=== FILE: json.dfy ===
/**
 * Parsed response bodies and the JavaScript property read (`v.key`, `v[0]`)
 * the manager performs on them.
 */
module Json {
  import opened Wrappers
  import opened Text
  import opened Errors

  datatype Json =
    | JNull
    | JBool(b: bool)
    | JNum(n: int)
    | JStr(s: string)
    | JArr(items: seq<Json>)
    | JObj(fields: map<string, Json>)

  /** A value read out of a body; `None` is `undefined`. */
  type Slot = Option<Json>

  /** JavaScript truthiness of a read value: empty arrays and objects are truthy. */
  predicate SlotTruthy(v: Slot) {
    match v
    case None => false
    case Some(j) =>
      match j
      case JNull => false
      case JBool(b) => b
      case JNum(n) => n != 0
      case JStr(s) => s != ""
      case JArr(_) => true
      case JObj(_) => true
  }

  /** A property name that denotes an array index: canonical decimal digits. */
  predicate IsIndexName(key: string) {
    |key| > 0 && AllDigits(key) && (key[0] == '0' ==> |key| == 1)
  }

  /**
   * `v[key]`: reading a property of undefined or null throws the engine's
   * TypeError; arrays and strings answer `length` and their index names;
   * numbers and booleans have none of the properties read here.
   */
  function Prop(v: Slot, key: string): (r: Result<Slot, Exception>)
    ensures r.Failure? <==> v.None? || v == Some(JNull)
    ensures r.Failure? ==> r.error == EngineTypeError
    ensures v.Some? && v.value.JObj? ==>
      r == Success(if key in v.value.fields then Some(v.value.fields[key]) else None)
    ensures v.Some? && v.value.JArr? && IsIndexName(key) ==>
      r == Success(if DigitsValue(key) < |v.value.items| then Some(v.value.items[DigitsValue(key)]) else None)
  {
    match v
    case None => Failure(EngineTypeError)
    case Some(j) =>
      match j
      case JNull => Failure(EngineTypeError)
      case JObj(m) => Success(if key in m then Some(m[key]) else None)
      case JArr(a) =>
        if key == "length" then Success(Some(JNum(|a|)))
        else if IsIndexName(key) && DigitsValue(key) < |a| then Success(Some(a[DigitsValue(key)]))
        else Success(None)
      case JStr(s) =>
        if key == "length" then Success(Some(JNum(|s|)))
        else if IsIndexName(key) && DigitsValue(key) < |s| then Success(Some(JStr([s[DigitsValue(key)]])))
        else Success(None)
      case JNum(_) => Success(None)
      case JBool(_) => Success(None)
  }

  /** The named field of an object, if the body is one and has it. */
  function Field(j: Json, key: string): Slot {
    if j.JObj? && key in j.fields then Some(j.fields[key]) else None
  }
}

=== FILE: player_manager.dfy ===
/**
 * The player manager: seven read-only operations over the statistics web
 * API. Each one validates its arguments with an ordered chain of checks,
 * builds one request URL, maps a failed request to its own error code and
 * extracts part of the response body.
 *
 * The HTTP request is not performed here. Every operation receives the
 * outcome of its request as a parameter and reports, in `requests`, which
 * URLs it asked for and in which order.
 */
module PlayerManager {
  import opened Wrappers
  import opened Text
  import opened Errors
  import opened JsValues
  import opened Json
  import opened Api
  import opened Checks

  /** What one call did: the URLs it requested, in order, and what it returned or threw. */
  datatype Call<T> = Call(requests: seq<string>, outcome: Result<T, Exception>)

  /** A player of the full player list, reduced to the string forms of its field values. */
  type Record = seq<string>

  /** The validated arguments of a statistics request, as they appear in the URL. */
  datatype StatsQuery = StatsQuery(id: string, group: string, season: string)

  /** The validated arguments of a game statistics request, as they appear in the URL. */
  datatype GameQuery = GameQuery(id: string, gamePk: string)

  const DefaultSeason := "2022"

  /** The call threw one of the argument-check codes. */
  predicate ArgumentError<T>(outcome: Result<T, Exception>) {
    outcome.Failure? && outcome.error.Raised? && IsArgumentCode(outcome.error.code)
  }

  /** The three statistics groups the API serves. */
  predicate IsStatGroup(t: string) {
    t == "hitting" || t == "pitching" || t == "fielding"
  }

  /** The season pattern `^\d{4}$`: exactly four ASCII digits. */
  predicate IsSeason(s: string) {
    |s| == 4 && AllDigits(s)
  }

  /** A defaulted parameter: only `undefined` is replaced by the default season. */
  function SeasonOrDefault(season: Value): Value
  {
    if season.VUndefined? then VStr(DefaultSeason) else season
  }

  // ---------------------------------------------------------------- checks

  function SearchChecks(keyword: Value): seq<Check> {
    [Check(IsString(keyword), KeywordNotString)]
  }

  function GetChecks(id: Value): seq<Check> {
    [Check(IsNumber(id), IdNotNumber)]
  }

  /** The four checks season and career statistics share, in source order. */
  function StatsTypeChecks(id: Value, group: Value): seq<Check> {
    [ Check(Truthy(group), NoTypeGiven),
      Check(IsNumber(id), IdNotNumber),
      Check(IsString(group), TypeNotString),
      Check(group.VStr? && IsStatGroup(group.s), InvalidType) ]
  }

  /** The two season checks season statistics and free agents share. */
  function SeasonChecks(season: Value): seq<Check> {
    [ Check(IsString(season), SeasonNotString),
      Check(season.VStr? && IsSeason(season.s), InvalidSeason) ]
  }

  function GameStatsChecks(id: Value, gamePk: Value): seq<Check> {
    [ Check(IsNumber(id), IdNotNumber),
      Check(IsNumber(gamePk), GamePkNotNumber) ]
  }

  /** `now` is the clock reading `Date.now()` returns at the time of the call. */
  function ChangesChecks(updatedSince: Value, now: int): seq<Check> {
    [ Check(Truthy(updatedSince), NoDateGiven),
      Check(IsDate(updatedSince), DateNotDate),
      Check(!(updatedSince.VDate? && updatedSince.time > now), DateInFuture) ]
  }

  // ------------------------------------------------------------ validation

  function ValidateGet(id: Value): (r: Result<string, Code>)
    ensures !IsNumber(id) ==> r == Failure(IdNotNumber)
    ensures IsNumber(id) ==> r == Success(NumberText(id))
  {
    var checks := GetChecks(id);
    match FirstFailure(checks)
    case Some(code) => Failure(code)
    case None =>
      assert checks[0].passes;
      Success(NumberText(id))
  }

  function ValidateCareerStats(id: Value, group: Value): (r: Result<StatsQuery, Code>)
    ensures !Truthy(group) ==> r == Failure(NoTypeGiven)
    ensures Truthy(group) && !IsNumber(id) ==> r == Failure(IdNotNumber)
    ensures Truthy(group) && IsNumber(id) && !group.VStr? ==> r == Failure(TypeNotString)
    ensures IsNumber(id) && group.VStr? && group.s != "" && !IsStatGroup(group.s) ==> r == Failure(InvalidType)
    ensures IsNumber(id) && group.VStr? && IsStatGroup(group.s) ==> r == Success(StatsQuery(NumberText(id), group.s, ""))
  {
    var checks := StatsTypeChecks(id, group);
    assert !checks[0].passes ==> FailsFirstAt(checks, 0);
    assert checks[0].passes && !checks[1].passes ==> FailsFirstAt(checks, 1);
    assert checks[0].passes && checks[1].passes && !checks[2].passes ==> FailsFirstAt(checks, 2);
    assert checks[0].passes && checks[1].passes && checks[2].passes && !checks[3].passes ==> FailsFirstAt(checks, 3);
    match FirstFailure(checks)
    case Some(code) => Failure(code)
    case None =>
      assert checks[1].passes && checks[3].passes;
      Success(StatsQuery(NumberText(id), group.s, ""))
  }

  function ValidateSeasonStats(id: Value, group: Value, season: Value): (r: Result<StatsQuery, Code>)
    ensures !Truthy(group) ==> r == Failure(NoTypeGiven)
    ensures Truthy(group) && !IsNumber(id) ==> r == Failure(IdNotNumber)
    ensures Truthy(group) && IsNumber(id) && !group.VStr? ==> r == Failure(TypeNotString)
    ensures IsNumber(id) && group.VStr? && group.s != "" && !IsStatGroup(group.s) ==> r == Failure(InvalidType)
    ensures IsNumber(id) && group.VStr? && IsStatGroup(group.s) && !SeasonOrDefault(season).VStr?
            ==> r == Failure(SeasonNotString)
    ensures IsNumber(id) && group.VStr? && IsStatGroup(group.s) && SeasonOrDefault(season).VStr?
            && !IsSeason(SeasonOrDefault(season).s)
            ==> r == Failure(InvalidSeason)
    ensures IsNumber(id) && group.VStr? && IsStatGroup(group.s) && SeasonOrDefault(season).VStr?
            && IsSeason(SeasonOrDefault(season).s)
            ==> r == Success(StatsQuery(NumberText(id), group.s, SeasonOrDefault(season).s))
  {
    var season := SeasonOrDefault(season);
    var typeChecks := StatsTypeChecks(id, group);
    var seasonChecks := SeasonChecks(season);
    assert !typeChecks[0].passes ==> FailsFirstAt(typeChecks, 0);
    assert typeChecks[0].passes && !typeChecks[1].passes ==> FailsFirstAt(typeChecks, 1);
    assert typeChecks[0].passes && typeChecks[1].passes && !typeChecks[2].passes ==> FailsFirstAt(typeChecks, 2);
    assert typeChecks[0].passes && typeChecks[1].passes && typeChecks[2].passes && !typeChecks[3].passes
           ==> FailsFirstAt(typeChecks, 3);
    assert seasonChecks[0].passes && !seasonChecks[1].passes ==> FailsFirstAt(seasonChecks, 1);
    FirstFailureAppend(typeChecks, seasonChecks);
    match FirstFailure(typeChecks + seasonChecks)
    case Some(code) => Failure(code)
    case None =>
      assert typeChecks[1].passes && typeChecks[3].passes && seasonChecks[1].passes;
      Success(StatsQuery(NumberText(id), group.s, season.s))
  }

  function ValidateGameStats(id: Value, gamePk: Value): (r: Result<GameQuery, Code>)
    ensures !IsNumber(id) ==> r == Failure(IdNotNumber)
    ensures IsNumber(id) && !IsNumber(gamePk) ==> r == Failure(GamePkNotNumber)
    ensures IsNumber(id) && IsNumber(gamePk) ==> r == Success(GameQuery(NumberText(id), NumberText(gamePk)))
  {
    var checks := GameStatsChecks(id, gamePk);
    assert checks[0].passes && !checks[1].passes ==> FailsFirstAt(checks, 1);
    match FirstFailure(checks)
    case Some(code) => Failure(code)
    case None =>
      assert checks[0].passes && checks[1].passes;
      Success(GameQuery(NumberText(id), NumberText(gamePk)))
  }

  function ValidateFreeAgents(season: Value): (r: Result<string, Code>)
    ensures !SeasonOrDefault(season).VStr? ==> r == Failure(SeasonNotString)
    ensures SeasonOrDefault(season).VStr? && !IsSeason(SeasonOrDefault(season).s) ==> r == Failure(InvalidSeason)
    ensures SeasonOrDefault(season).VStr? && IsSeason(SeasonOrDefault(season).s)
            ==> r == Success(SeasonOrDefault(season).s)
  {
    var season := SeasonOrDefault(season);
    var checks := SeasonChecks(season);
    assert checks[0].passes && !checks[1].passes ==> FailsFirstAt(checks, 1);
    match FirstFailure(checks)
    case Some(code) => Failure(code)
    case None =>
      assert checks[0].passes && checks[1].passes;
      Success(season.s)
  }

  /** On success, the date's ISO text for the URL. */
  function ValidateChanges(updatedSince: Value, now: int): (r: Result<string, Code>)
    ensures !Truthy(updatedSince) ==> r == Failure(NoDateGiven)
    ensures Truthy(updatedSince) && !IsDate(updatedSince) ==> r == Failure(DateNotDate)
    ensures IsDate(updatedSince) && updatedSince.time > now ==> r == Failure(DateInFuture)
    ensures IsDate(updatedSince) && updatedSince.time <= now ==> r == Success(updatedSince.iso)
  {
    var checks := ChangesChecks(updatedSince, now);
    assert checks[0].passes && !checks[1].passes ==> FailsFirstAt(checks, 1);
    assert checks[0].passes && checks[1].passes && !checks[2].passes ==> FailsFirstAt(checks, 2);
    match FirstFailure(checks)
    case Some(code) => Failure(code)
    case None =>
      assert checks[1].passes && checks[2].passes;
      Success(updatedSince.iso)
  }

  // ------------------------------------------------------------------ URLs

  function PlayersUrl(api: Handle): string
  {
    Endpoint(api, "sports/1/players")
  }

  /** The id is the last segment of the player URL. */
  function PlayerUrl(api: Handle, id: string): string
  {
    Endpoint(api, "people/" + id)
  }

  /** `${season ? `season=${season}` : ''}`: the season part is written exactly for a non-empty season. */
  function SeasonStatsUrl(api: Handle, q: StatsQuery): string
  {
    Endpoint(api, "people/" + q.id + "?hydrate=stats(group=[" + q.group + "],type=[season],"
                  + (if Truthy(VStr(q.season)) then "season=" + q.season else "") + ")")
  }

  /** The career URL extends the player URL and names no season. */
  function CareerStatsUrl(api: Handle, q: StatsQuery): string
  {
    Endpoint(api, "people/" + q.id + "?hydrate=stats(group=[" + q.group + "],type=[career])")
  }

  /** The game statistics URL extends the player URL. */
  function GameStatsUrl(api: Handle, q: GameQuery): string
  {
    Endpoint(api, "people/" + q.id + "/stats/game/" + q.gamePk)
  }

  /** The season is the tail of the free agents URL. */
  function FreeAgentsUrl(api: Handle, season: string): string
  {
    Endpoint(api, "people/freeAgents?season=" + season)
  }

  /** The ISO text is the tail of the changes URL. */
  function ChangesUrl(api: Handle, iso: string): string
  {
    Endpoint(api, "people/changes?updatedSince=" + iso)
  }

  // ------------------------------------------------------------ extraction

  /** `r.data.people[0]`: undefined when the list is empty, a TypeError when there is no list. */
  function FirstPerson(body: Json): (r: Result<Slot, Exception>)
    ensures r.Failure? <==> body.JNull? || Field(body, "people").None? || Field(body, "people") == Some(JNull)
    ensures r.Failure? ==> r.error == EngineTypeError
    ensures Field(body, "people").Some? && Field(body, "people").value.JArr? ==>
      var people := Field(body, "people").value.items;
      r == Success(if |people| > 0 then Some(people[0]) else None)
  {
    var people :- Prop(Some(body), "people");
    assert IsIndexName("0") && DigitsValue("0") == 0;
    Prop(people, "0")
  }

  /** `r.data.people[0].stats`, refused with STATS_NOT_FOUND when falsy. */
  function FirstPersonStats(body: Json): (r: Result<Json, Exception>)
    ensures r.Success? ==> SlotTruthy(Some(r.value))
    ensures r.Failure? && r.error.Raised? ==> r.error.code == StatsNotFound
    ensures FirstPerson(body).Failure? || FirstPerson(body) == Success(None) ==> r == Failure(EngineTypeError)
    ensures FirstPerson(body) == Success(Some(JNull)) ==> r == Failure(EngineTypeError)
    ensures FirstPerson(body).Success? && FirstPerson(body).value.Some? && !FirstPerson(body).value.value.JNull? ==>
      var person := FirstPerson(body).value.value;
      r == if SlotTruthy(Field(person, "stats")) then Success(Field(person, "stats").value) else Failure(Raised(StatsNotFound))
  {
    var person :- FirstPerson(body);
    var stats :- Prop(person, "stats");
    if SlotTruthy(stats) then Success(stats.value) else Failure(Raised(StatsNotFound))
  }

  /** `GreaterThanZero(v)` is `v > 0` for the values a `length` read yields. */
  predicate GreaterThanZero(v: Slot) {
    match v
    case Some(JNum(n)) => n > 0
    case Some(JBool(b)) => b
    case _ => false
  }

  /** A stats element whose `splits` is non-empty: the structural reading of `s.splits?.length > 0`. */
  predicate HasSplits(s: Json) {
    && s.JObj?
    && "splits" in s.fields
    && match s.fields["splits"]
       case JArr(items) => |items| > 0
       case JStr(t) => |t| > 0
       case JObj(m) => "length" in m && GreaterThanZero(Some(m["length"]))
       case _ => false
  }

  /** `s.splits?.length > 0` evaluated on one element; reading `splits` of null throws. */
  function SplitsTest(s: Json): (r: Result<bool, Exception>)
    ensures r.Failure? <==> s.JNull?
    ensures r.Success? ==> r.value == HasSplits(s)
  {
    var splits :- Prop(Some(s), "splits");
    if splits.None? || splits == Some(JNull) then Success(false)
    else
      Success(GreaterThanZero(Prop(splits, "length").value))
  }

  /** The counter `i` of the `forEach` over the stats list. */
  function CountWithSplits(stats: seq<Json>): (r: Result<nat, Exception>)
    ensures r.Failure? <==> JNull in stats
    ensures r.Failure? ==> r.error == EngineTypeError
    ensures r.Success? ==> r.value <= |stats|
    ensures r.Success? ==> (r.value == 0 <==> forall k :: 0 <= k < |stats| ==> !HasSplits(stats[k]))
  {
    if |stats| == 0 then Success(0)
    else
      var front := stats[..|stats| - 1];
      assert stats == front + [stats[|stats| - 1]];
      var counted :- CountWithSplits(front);
      var has :- SplitsTest(stats[|stats| - 1]);
      Success(if has then counted + 1 else counted)
  }

  /**
   * `r.data.stats`, refused with STATS_NOT_FOUND when its length is 0 or no
   * element has splits; a non-list `stats` makes `forEach` throw.
   */
  function GameStatsOf(body: Json): (r: Result<Json, Exception>)
    ensures r.Success? ==> Field(body, "stats") == Some(r.value) && r.value.JArr?
    ensures r.Failure? && r.error.Raised? ==> r.error.code == StatsNotFound
    ensures r.Success? ==> exists k :: 0 <= k < |r.value.items| && HasSplits(r.value.items[k])
    ensures Field(body, "stats").None? || Field(body, "stats") == Some(JNull) ==> r == Failure(EngineTypeError)
    ensures Field(body, "stats").Some? && Field(body, "stats").value.JArr? && JNull in Field(body, "stats").value.items ==>
      r == Failure(EngineTypeError)
    ensures Field(body, "stats").Some? && Field(body, "stats").value.JArr? && JNull !in Field(body, "stats").value.items ==>
      var stats := Field(body, "stats").value;
      r == if forall k :: 0 <= k < |stats.items| ==> !HasSplits(stats.items[k])
           then Failure(Raised(StatsNotFound)) else Success(stats)
  {
    var stats :- Prop(Some(body), "stats");
    var length :- Prop(stats, "length");
    if length == Some(JNum(0)) then Failure(Raised(StatsNotFound))
    else if !stats.value.JArr? then Failure(EngineTypeError)
    else
      var count :- CountWithSplits(stats.value.items);
      if count == 0 then Failure(Raised(StatsNotFound)) else Success(stats.value)
  }

  // ------------------------------------------------------------ the search

  /** Some field's lower-cased text contains the lower-cased keyword. */
  predicate Matches(player: Record, keyword: string) {
    exists j :: 0 <= j < |player| && Contains(Lower(player[j]), Lower(keyword))
  }

  /** The players that match, in list order. */
  function Matching(people: seq<Record>, keyword: string): seq<Record> {
    if |people| == 0 then []
    else
      var last := people[|people| - 1];
      Matching(people[..|people| - 1], keyword) + (if Matches(last, keyword) then [last] else [])
  }

  /** The positions of the players that match, ascending. */
  function MatchIndices(people: seq<Record>, keyword: string): seq<nat> {
    if |people| == 0 then []
    else
      MatchIndices(people[..|people| - 1], keyword)
      + (if Matches(people[|people| - 1], keyword) then [|people| - 1] else [])
  }

  /** The nested loops of `search`: the first matching field adds the player and stops the inner loop. */
  method FilterPlayers(people: seq<Record>, keyword: string) returns (players: seq<Record>)
    ensures players == Matching(people, keyword)
  {
    players := [];
    var p := 0;
    while p < |people|
      invariant 0 <= p <= |people|
      invariant players == Matching(people[..p], keyword)
    {
      assert people[..p + 1][..p] == people[..p];
      var values := people[p];
      var v := 0;
      var added := false;
      while v < |values|
        invariant 0 <= v <= |values|
        invariant !added ==> forall j :: 0 <= j < v ==> !Contains(Lower(values[j]), Lower(keyword))
        invariant !added ==> players == Matching(people[..p], keyword)
        invariant added ==> players == Matching(people[..p + 1], keyword)
      {
        if Contains(Lower(values[v]), Lower(keyword)) {
          players := players + [people[p]];
          added := true;
          break;
        }
        v := v + 1;
      }
      p := p + 1;
    }
    assert people[..p] == people;
  }

  // ------------------------------------------------------------ operations

  /**
   * `search(keyword)`: the request has no catch, so a failed request
   * propagates unchanged; a body without `people` yields no players.
   */
  method Search(api: Handle, keyword: Value, response: Result<Option<seq<Record>>, TransportError>)
    returns (r: Call<seq<Record>>)
    ensures r.requests == [] <==> ArgumentError(r.outcome)
    ensures !IsString(keyword) ==> r.outcome == Failure(Raised(KeywordNotString))
    ensures IsString(keyword) ==> r.requests == [PlayersUrl(api)]
    ensures IsString(keyword) && response.Failure? ==> r.outcome == Failure(Transport(response.error))
    ensures IsString(keyword) && response.Success? ==>
      r.outcome == Success(if response.value.Some? then Matching(response.value.value, keyword.s) else [])
  {
    var failed := FirstFailure(SearchChecks(keyword));
    if failed.Some? {
      return Call([], Failure(Raised(failed.value)));
    }
    assert SearchChecks(keyword)[0].passes;
    var url := PlayersUrl(api);
    match response {
      case Failure(e) =>
        r := Call([url], Failure(Transport(e)));
      case Success(people) =>
        var players: seq<Record> := [];
        if people.Some? {
          players := FilterPlayers(people.value, keyword.s);
        }
        r := Call([url], Success(players));
    }
  }

  /** `get(id)`: the first entry of `people`; a failed request becomes PLAYER_NOT_FOUND. */
  function Get(api: Handle, id: Value, response: Result<Json, TransportError>): (r: Call<Slot>)
    ensures r.requests == [] <==> ArgumentError(r.outcome)
    ensures !IsNumber(id) ==> r.outcome == Failure(Raised(IdNotNumber))
    ensures IsNumber(id) ==> r.requests == [PlayerUrl(api, NumberText(id))]
    ensures IsNumber(id) && response.Failure? ==> r.outcome == Failure(Raised(PlayerNotFound))
    ensures IsNumber(id) && response.Success? ==> r.outcome == FirstPerson(response.value)
    ensures r.outcome.Failure? ==> !r.outcome.error.Transport?
  {
    match ValidateGet(id)
    case Failure(code) => Call([], Failure(Raised(code)))
    case Success(idText) =>
      Call([PlayerUrl(api, idText)],
           match response
           case Failure(_) => Failure(Raised(PlayerNotFound))
           case Success(body) => FirstPerson(body))
  }

  /** `getSeasonStats(id, type, season = '2022')`. */
  function GetSeasonStats(api: Handle, id: Value, group: Value, season: Value, response: Result<Json, TransportError>)
    : (r: Call<Json>)
    ensures r.requests == [] <==> ArgumentError(r.outcome)
    ensures ValidateSeasonStats(id, group, season).Failure? ==> r.requests == []
    ensures ValidateSeasonStats(id, group, season).Failure? ==>
      r.outcome == Failure(Raised(ValidateSeasonStats(id, group, season).error))
    ensures ValidateSeasonStats(id, group, season).Success? ==>
      && r.requests == [SeasonStatsUrl(api, ValidateSeasonStats(id, group, season).value)]
      && (response.Failure? ==> r.outcome == Failure(Raised(PlayerNotFound)))
      && (response.Success? ==> r.outcome == FirstPersonStats(response.value))
    ensures r.outcome.Failure? ==> !r.outcome.error.Transport?
  {
    match ValidateSeasonStats(id, group, season)
    case Failure(code) => Call([], Failure(Raised(code)))
    case Success(q) =>
      Call([SeasonStatsUrl(api, q)],
           match response
           case Failure(_) => Failure(Raised(PlayerNotFound))
           case Success(body) => FirstPersonStats(body))
  }

  /** `getCareerStats(id, type)`. */
  function GetCareerStats(api: Handle, id: Value, group: Value, response: Result<Json, TransportError>)
    : (r: Call<Json>)
    ensures r.requests == [] <==> ArgumentError(r.outcome)
    ensures ValidateCareerStats(id, group).Failure? ==> r.requests == []
    ensures ValidateCareerStats(id, group).Failure? ==>
      r.outcome == Failure(Raised(ValidateCareerStats(id, group).error))
    ensures ValidateCareerStats(id, group).Success? ==>
      && r.requests == [CareerStatsUrl(api, ValidateCareerStats(id, group).value)]
      && (response.Failure? ==> r.outcome == Failure(Raised(PlayerNotFound)))
      && (response.Success? ==> r.outcome == FirstPersonStats(response.value))
    ensures r.outcome.Failure? ==> !r.outcome.error.Transport?
  {
    match ValidateCareerStats(id, group)
    case Failure(code) => Call([], Failure(Raised(code)))
    case Success(q) =>
      Call([CareerStatsUrl(api, q)],
           match response
           case Failure(_) => Failure(Raised(PlayerNotFound))
           case Success(body) => FirstPersonStats(body))
  }

  /**
   * `getGameStats(id, gamePk)`: `get(id)` first, any failure of it becoming
   * PLAYER_NOT_FOUND; the stats request has no catch.
   */
  function GetGameStats(api: Handle, id: Value, gamePk: Value,
                        playerResponse: Result<Json, TransportError>,
                        statsResponse: Result<Json, TransportError>): (r: Call<Json>)
    ensures r.requests == [] <==> ArgumentError(r.outcome)
    ensures ValidateGameStats(id, gamePk).Failure? ==> r.requests == []
    ensures ValidateGameStats(id, gamePk).Failure? ==>
      r.outcome == Failure(Raised(ValidateGameStats(id, gamePk).error))
    ensures ValidateGameStats(id, gamePk).Success? ==> 1 <= |r.requests| <= 2 && r.requests[0] == PlayerUrl(api, NumberText(id))
    ensures ValidateGameStats(id, gamePk).Success? && Get(api, id, playerResponse).outcome.Failure? ==>
      r == Call([PlayerUrl(api, NumberText(id))], Failure(Raised(PlayerNotFound)))
    ensures ValidateGameStats(id, gamePk).Success? && Get(api, id, playerResponse).outcome.Success? ==>
      r.requests == [PlayerUrl(api, NumberText(id)), GameStatsUrl(api, ValidateGameStats(id, gamePk).value)]
    ensures |r.requests| == 2 ==> r.requests[1] == GameStatsUrl(api, ValidateGameStats(id, gamePk).value)
    ensures |r.requests| == 2 && statsResponse.Failure? ==> r.outcome == Failure(Transport(statsResponse.error))
    ensures |r.requests| == 2 && statsResponse.Success? ==> r.outcome == GameStatsOf(statsResponse.value)
    ensures r.outcome.Failure? && r.outcome.error.Transport? ==> |r.requests| == 2 && statsResponse.Failure?
  {
    match ValidateGameStats(id, gamePk)
    case Failure(code) => Call([], Failure(Raised(code)))
    case Success(q) =>
      var pre := Get(api, id, playerResponse);
      if pre.outcome.Failure? then Call(pre.requests, Failure(Raised(PlayerNotFound)))
      else
        Call(pre.requests + [GameStatsUrl(api, q)],
             match statsResponse
             case Failure(e) => Failure(Transport(e))
             case Success(body) => GameStatsOf(body))
  }

  /** `getFreeAgents(season = '2022')`: `r.data.freeAgents`. */
  function GetFreeAgents(api: Handle, season: Value, response: Result<Json, TransportError>): (r: Call<Slot>)
    ensures r.requests == [] <==> ArgumentError(r.outcome)
    ensures ValidateFreeAgents(season).Failure? ==> r.requests == []
    ensures ValidateFreeAgents(season).Failure? ==> r.outcome == Failure(Raised(ValidateFreeAgents(season).error))
    ensures ValidateFreeAgents(season).Success? ==>
      && r.requests == [FreeAgentsUrl(api, ValidateFreeAgents(season).value)]
      && (response.Failure? ==> r.outcome == Failure(Raised(FreeAgentsNotFound)))
      && (response.Success? && !response.value.JNull? ==> r.outcome == Success(Field(response.value, "freeAgents")))
      && (response == Success(JNull) ==> r.outcome == Failure(EngineTypeError))
    ensures r.outcome.Failure? ==> !r.outcome.error.Transport?
  {
    match ValidateFreeAgents(season)
    case Failure(code) => Call([], Failure(Raised(code)))
    case Success(s) =>
      Call([FreeAgentsUrl(api, s)],
           match response
           case Failure(_) => Failure(Raised(FreeAgentsNotFound))
           case Success(body) => Prop(Some(body), "freeAgents"))
  }

  /** `getChanges(updatedSince)`: `r.data.people`; `now` stands for `Date.now()`. */
  function GetChanges(api: Handle, updatedSince: Value, now: int, response: Result<Json, TransportError>)
    : (r: Call<Slot>)
    ensures r.requests == [] <==> ArgumentError(r.outcome)
    ensures ValidateChanges(updatedSince, now).Failure? ==> r.requests == []
    ensures ValidateChanges(updatedSince, now).Failure? ==>
      r.outcome == Failure(Raised(ValidateChanges(updatedSince, now).error))
    ensures ValidateChanges(updatedSince, now).Success? ==>
      && r.requests == [ChangesUrl(api, updatedSince.iso)]
      && (response.Failure? ==> r.outcome == Failure(Raised(ChangesNotFound)))
      && (response.Success? && !response.value.JNull? ==> r.outcome == Success(Field(response.value, "people")))
      && (response == Success(JNull) ==> r.outcome == Failure(EngineTypeError))
    ensures r.outcome.Failure? ==> !r.outcome.error.Transport?
  {
    match ValidateChanges(updatedSince, now)
    case Failure(code) => Call([], Failure(Raised(code)))
    case Success(iso) =>
      Call([ChangesUrl(api, iso)],
           match response
           case Failure(_) => Failure(Raised(ChangesNotFound))
           case Success(body) => Prop(Some(body), "people"))
  }
}

=== FILE: player_manager_proofs.dfy ===
/**
 * Properties relating several calls of the player manager: what the search
 * keeps, how the check chains of different operations agree, which seasons
 * are accepted, and that request URLs identify their arguments.
 */
module PlayerManagerProofs {
  import opened Wrappers
  import opened Text
  import opened Errors
  import opened JsValues
  import opened Json
  import opened Api
  import opened Checks
  import opened PlayerManager

  // ------------------------------------------------------------ the search

  /** The positions the search keeps are ascending, in range, and hold matching players. */
  lemma {:induction false} MatchIndicesAscending(people: seq<Record>, keyword: string)
    ensures forall k :: 0 <= k < |MatchIndices(people, keyword)| ==>
      MatchIndices(people, keyword)[k] < |people| && Matches(people[MatchIndices(people, keyword)[k]], keyword)
    ensures forall a, b :: 0 <= a < b < |MatchIndices(people, keyword)| ==>
      MatchIndices(people, keyword)[a] < MatchIndices(people, keyword)[b]
  {
    if |people| > 0 {
      var front := people[..|people| - 1];
      MatchIndicesAscending(front, keyword);
      var before := MatchIndices(front, keyword);
      assert forall k :: 0 <= k < |before| ==> front[before[k]] == people[before[k]];
    }
  }

  /** Every matching position is kept. */
  lemma {:induction false} MatchIndicesComplete(people: seq<Record>, keyword: string)
    ensures forall i :: 0 <= i < |people| && Matches(people[i], keyword) ==> i in MatchIndices(people, keyword)
  {
    if |people| > 0 {
      var front := people[..|people| - 1];
      MatchIndicesComplete(front, keyword);
      assert forall i :: 0 <= i < |front| ==> front[i] == people[i];
    }
  }

  /** The search result is the player list read at the kept positions. */
  lemma {:induction false} MatchingAtIndices(people: seq<Record>, keyword: string)
    ensures |Matching(people, keyword)| == |MatchIndices(people, keyword)|
    ensures forall k :: 0 <= k < |MatchIndices(people, keyword)| ==>
      MatchIndices(people, keyword)[k] < |people| && Matching(people, keyword)[k] == people[MatchIndices(people, keyword)[k]]
  {
    if |people| > 0 {
      var front := people[..|people| - 1];
      MatchingAtIndices(front, keyword);
      var before := MatchIndices(front, keyword);
      assert forall k :: 0 <= k < |before| ==> front[before[k]] == people[before[k]];
    }
  }

  /**
   * The search keeps exactly the matching players, in list order, each
   * position at most once: the result is the list read at the ascending
   * positions of the matching players.
   */
  lemma {:induction false} MatchingIsOrderedSelection(people: seq<Record>, keyword: string)
    ensures var idx := MatchIndices(people, keyword);
      && (forall a, b :: 0 <= a < b < |idx| ==> idx[a] < idx[b])
      && (forall k :: 0 <= k < |idx| ==> idx[k] < |people| && Matches(people[idx[k]], keyword))
      && (forall i :: 0 <= i < |people| && Matches(people[i], keyword) ==> i in idx)
      && |Matching(people, keyword)| == |idx|
      && (forall k :: 0 <= k < |idx| ==> Matching(people, keyword)[k] == people[idx[k]])
  {
    MatchIndicesAscending(people, keyword);
    MatchIndicesComplete(people, keyword);
    MatchingAtIndices(people, keyword);
  }

  /** A keyword and its lower-cased form select the same players. */
  lemma {:induction false} SearchIgnoresCase(people: seq<Record>, keyword: string)
    ensures Matching(people, keyword) == Matching(people, Lower(keyword))
  {
    if |people| > 0 {
      SearchIgnoresCase(people[..|people| - 1], keyword);
      assert Lower(Lower(keyword)) == Lower(keyword);
    }
  }

  /** Every string contains the empty keyword, so only a player without fields fails to match it. */
  lemma EmptyKeywordMatchesAnyField(player: Record)
    ensures Matches(player, "") <==> |player| > 0
  {
    if |player| > 0 {
      assert OccursAt(Lower(player[0]), Lower(""), 0);
    }
  }

  /**
   * A stats list whose only element has an empty `splits` is refused; one
   * whose element has a one-entry `splits` is returned as it is.
   */
  lemma GameStatsExamples()
    ensures GameStatsOf(JObj(map["stats" := JArr([JObj(map["splits" := JArr([])])])]))
            == Failure(Raised(StatsNotFound))
    ensures GameStatsOf(JObj(map["stats" := JArr([JObj(map["splits" := JArr([JObj(map[])])])])]))
            == Success(JArr([JObj(map["splits" := JArr([JObj(map[])])])]))
  {
    var empty := JObj(map["splits" := JArr([])]);
    var one := JObj(map["splits" := JArr([JObj(map[])])]);
    assert !HasSplits(empty) && HasSplits(one);
  }

  // ---------------------------------------------------- the check chains

  /**
   * Career statistics run the first four checks of season statistics: when
   * they fail, season statistics fail with the same code, whatever the season.
   */
  lemma CareerChecksArePrefix(id: Value, group: Value, season: Value)
    ensures ValidateCareerStats(id, group).Failure? ==>
      ValidateSeasonStats(id, group, season) == Failure(ValidateCareerStats(id, group).error)
    ensures ValidateCareerStats(id, group).Success? ==>
      ValidateSeasonStats(id, group, season).Success?
      || ValidateSeasonStats(id, group, season).error in {SeasonNotString, InvalidSeason}
  {
  }

  /**
   * Once id and type pass, season statistics and free agents judge a season
   * alike: both accept it, or both refuse it with the same code.
   */
  lemma SeasonRuleShared(id: Value, group: Value, season: Value)
    requires ValidateCareerStats(id, group).Success?
    ensures ValidateSeasonStats(id, group, season).Success? <==> ValidateFreeAgents(season).Success?
    ensures ValidateFreeAgents(season).Failure? ==>
      ValidateSeasonStats(id, group, season) == Failure(ValidateFreeAgents(season).error)
    ensures ValidateFreeAgents(season).Success? ==>
      ValidateSeasonStats(id, group, season).value.season == ValidateFreeAgents(season).value
  {
  }

  /** The year `y` written with four digits, zero-padded. */
  function YearText(y: nat): string
    requires y < 10000
  {
    [DigitChar(y / 1000), DigitChar(y / 100 % 10), DigitChar(y / 10 % 10), DigitChar(y % 10)]
  }

  /** The season pattern accepts exactly the four-digit renderings of the years 0 to 9999. */
  lemma SeasonsAreYears(s: string)
    ensures IsSeason(s) <==> exists y :: 0 <= y < 10000 && YearText(y) == s
  {
    if IsSeason(s) {
      var y := YearDigitsReadBack(s);
      assert YearText(y) == s;
    }
    if exists y :: 0 <= y < 10000 && YearText(y) == s {
      var y :| 0 <= y < 10000 && YearText(y) == s;
      assert IsSeason(YearText(y));
    }
  }

  /** Four digits read as a year and written back again give the same text. */
  lemma YearDigitsReadBack(s: string) returns (y: nat)
    requires IsSeason(s)
    ensures y < 10000 && YearText(y) == s
  {
    var d0, d1, d2, d3 := DigitValue(s[0]), DigitValue(s[1]), DigitValue(s[2]), DigitValue(s[3]);
    y := 1000 * d0 + 100 * d1 + 10 * d2 + d3;
    DivideYear(d0, d1, d2, d3);
    DigitRoundTrip(s[0]);
    DigitRoundTrip(s[1]);
    DigitRoundTrip(s[2]);
    DigitRoundTrip(s[3]);
    var t := YearText(y);
    assert t[0] == s[0] && t[1] == s[1] && t[2] == s[2] && t[3] == s[3];
  }

  lemma DivideYear(d0: nat, d1: nat, d2: nat, d3: nat)
    requires d0 < 10 && d1 < 10 && d2 < 10 && d3 < 10
    ensures var y := 1000 * d0 + 100 * d1 + 10 * d2 + d3;
      y / 1000 == d0 && y / 100 % 10 == d1 && y / 10 % 10 == d2 && y % 10 == d3
  {
    var low := 100 * d1 + 10 * d2 + d3;
    assert 0 <= low < 1000;
    assert 1000 * d0 + low == d0 * 1000 + low;
    DivMod(d0, low, 1000);
    var mid := 10 * d2 + d3;
    assert 0 <= mid < 100;
    DivMod(10 * d0 + d1, mid, 100);
    DivMod(d1, 0, 10);
    DivMod(100 * d0 + 10 * d1 + d2, d3, 10);
    DivMod(10 * d0 + d1, d2, 10);
  }

  lemma DivMod(q: nat, r: nat, n: nat)
    requires 0 <= r < n
    ensures (q * n + r) / n == q && (q * n + r) % n == r
  {
    var m := q * n + r;
    var k := m / n;
    assert m == k * n + m % n;
    if k > q {
      MultiplyMonotone(q + 1, k, n);
      assert false;
    } else if k < q {
      MultiplyMonotone(k + 1, q, n);
      assert false;
    }
  }

  lemma {:induction false} MultiplyMonotone(a: nat, b: nat, n: nat)
    requires a <= b
    ensures a * n <= b * n
  {
    if a < b {
      MultiplyMonotone(a, b - 1, n);
      assert b * n == (b - 1) * n + n;
    }
  }

  lemma DigitRoundTrip(c: char)
    requires IsDigit(c)
    ensures DigitChar(DigitValue(c)) == c
  {
  }

  /** An omitted season is the valid season 2022, in both operations that default it. */
  lemma OmittedSeasonIs2022(id: Value, group: Value)
    requires ValidateCareerStats(id, group).Success?
    ensures ValidateFreeAgents(VUndefined) == Success("2022")
    ensures ValidateSeasonStats(id, group, VUndefined).Success?
    ensures ValidateSeasonStats(id, group, VUndefined).value.season == "2022"
  {
    assert SeasonOrDefault(VUndefined) == VStr("2022");
    assert IsSeason("2022") by {
      assert IsDigit('2') && IsDigit('0');
    }
    if !IsNumber(id) || !group.VStr? || !IsStatGroup(group.s) {
      assert false;
    }
  }

  // ------------------------------------------------------------------ URLs

  /** Distinct numbers never render to the same text. */
  lemma NumberTextInjective(a: Value, b: Value)
    requires IsNumber(a) && IsNumber(b)
    requires NumberText(a) == NumberText(b)
    ensures a == b
  {
    if a.VNum? && b.VNum? {
      var s := NumberText(a);
      if a.n < 0 {
        assert DigitsValue(s[1..]) == -a.n == -b.n;
      }
    }
  }

  lemma PeoplePath(api: Handle, path: string)
    ensures Endpoint(api, "people/" + path) == (api.base + "/" + api.version + "/people/") + path
  {
  }

  /** The player URL names its player: two numbers give the same URL only if they are equal. */
  lemma PlayerUrlInjective(api: Handle, a: Value, b: Value)
    requires IsNumber(a) && IsNumber(b)
    requires PlayerUrl(api, NumberText(a)) == PlayerUrl(api, NumberText(b))
    ensures a == b
  {
    var prefix := api.base + "/" + api.version + "/people/";
    PeoplePath(api, NumberText(a));
    PeoplePath(api, NumberText(b));
    assert NumberText(a) == (prefix + NumberText(a))[|prefix|..];
    assert NumberText(b) == (prefix + NumberText(b))[|prefix|..];
    NumberTextInjective(a, b);
  }

  /**
   * Two strings that do not contain the first character of a separator,
   * each followed by that separator, split one way only.
   */
  lemma SplitAt(a: string, b: string, c: string, d: string, sep: string)
    requires |sep| > 0 && sep[0] !in a && sep[0] !in c
    requires a + sep + b == c + sep + d
    ensures a == c && b == d
  {
    var s := a + sep + b;
    if |a| < |c| {
      CharBefore(c, sep, d, |a|);
      SeparatorAfter(a, sep, b);
      assert false;
    } else if |c| < |a| {
      CharBefore(a, sep, b, |c|);
      SeparatorAfter(c, sep, d);
      assert false;
    } else {
      assert a == s[..|a|] == c;
      assert b == s[|a| + |sep|..] == d;
    }
  }

  lemma SeparatorAfter(a: string, sep: string, b: string)
    ensures |sep| > 0 ==> (a + sep + b)[|a|] == sep[0]
  {
  }

  lemma CharBefore(a: string, sep: string, b: string, i: int)
    requires 0 <= i < |a| && |sep| > 0 && sep[0] !in a
    ensures (a + sep + b)[i] != sep[0]
  {
    assert (a + sep + b)[i] == a[i];
  }

  lemma GameStatsPath(api: Handle, q: GameQuery)
    ensures GameStatsUrl(api, q) == (api.base + "/" + api.version + "/people/") + (q.id + "/stats/game/" + q.gamePk)
  {
  }

  lemma PrefixCancel(p: string, x: string, y: string)
    requires p + x == p + y
    ensures x == y
  {
    assert x == (p + x)[|p|..];
    assert y == (p + y)[|p|..];
  }

  /** The game statistics URL names both the player and the game. */
  lemma GameStatsUrlInjective(api: Handle, id1: Value, pk1: Value, id2: Value, pk2: Value)
    requires IsNumber(id1) && IsNumber(pk1) && IsNumber(id2) && IsNumber(pk2)
    requires GameStatsUrl(api, GameQuery(NumberText(id1), NumberText(pk1)))
          == GameStatsUrl(api, GameQuery(NumberText(id2), NumberText(pk2)))
    ensures id1 == id2 && pk1 == pk2
  {
    var q1 := GameQuery(NumberText(id1), NumberText(pk1));
    var q2 := GameQuery(NumberText(id2), NumberText(pk2));
    GameStatsPath(api, q1);
    GameStatsPath(api, q2);
    PrefixCancel(api.base + "/" + api.version + "/people/", q1.id + "/stats/game/" + q1.gamePk, q2.id + "/stats/game/" + q2.gamePk);
    SplitAt(q1.id, q1.gamePk, q2.id, q2.gamePk, "/stats/game/");
    NumberTextInjective(id1, id2);
    NumberTextInjective(pk1, pk2);
  }

  /**
   * A validated season is never empty, so the season request always carries
   * `season=<season>`; the template's empty alternative is never taken.
   */
  lemma SeasonStatsUrlNamesSeason(api: Handle, id: Value, group: Value, season: Value)
    requires ValidateSeasonStats(id, group, season).Success?
    ensures var q := ValidateSeasonStats(id, group, season).value;
      SeasonStatsUrl(api, q)
      == Endpoint(api, "people/" + q.id + "?hydrate=stats(group=[" + q.group + "],type=[season],season=" + q.season + ")")
  {
    var q := SeasonStatsAccepted(id, group, season);
    assert |q.season| == 4;
  }

  lemma SuffixCancel(x: string, y: string, t: string)
    requires x + t == y + t
    ensures x == y
  {
    assert x == (x + t)[..|x|];
    assert y == (y + t)[..|y|];
  }

  lemma SeasonStatsPath(api: Handle, q: StatsQuery)
    requires q.season != ""
    ensures SeasonStatsUrl(api, q)
         == (api.base + "/" + api.version + "/people/")
            + (q.id + "?hydrate=stats(group=[" + (q.group + "],type=[season],season=" + (q.season + ")")))
  {
  }

  lemma CareerStatsPath(api: Handle, q: StatsQuery)
    ensures CareerStatsUrl(api, q)
         == (api.base + "/" + api.version + "/people/")
            + (q.id + "?hydrate=stats(group=[" + (q.group + "],type=[career])"))
  {
  }

  /** Query strings without the separators' first characters are recovered from the season URL. */
  lemma SeasonQueryFromUrl(api: Handle, q1: StatsQuery, q2: StatsQuery)
    requires '?' !in q1.id && '?' !in q2.id && ']' !in q1.group && ']' !in q2.group
    requires q1.season != "" && q2.season != ""
    requires SeasonStatsUrl(api, q1) == SeasonStatsUrl(api, q2)
    ensures q1 == q2
  {
    SeasonStatsPath(api, q1);
    SeasonStatsPath(api, q2);
    var tail1 := q1.group + "],type=[season],season=" + (q1.season + ")");
    var tail2 := q2.group + "],type=[season],season=" + (q2.season + ")");
    PrefixCancel(api.base + "/" + api.version + "/people/",
                 q1.id + "?hydrate=stats(group=[" + tail1, q2.id + "?hydrate=stats(group=[" + tail2);
    SplitAt(q1.id, tail1, q2.id, tail2, "?hydrate=stats(group=[");
    SplitAt(q1.group, q1.season + ")", q2.group, q2.season + ")", "],type=[season],season=");
    SuffixCancel(q1.season, q2.season, ")");
  }

  /** Query strings without the separators' first characters are recovered from the career URL. */
  lemma CareerQueryFromUrl(api: Handle, q1: StatsQuery, q2: StatsQuery)
    requires '?' !in q1.id && '?' !in q2.id
    requires CareerStatsUrl(api, q1) == CareerStatsUrl(api, q2)
    ensures q1.id == q2.id && q1.group == q2.group
  {
    CareerStatsPath(api, q1);
    CareerStatsPath(api, q2);
    var tail1 := q1.group + "],type=[career])";
    var tail2 := q2.group + "],type=[career])";
    PrefixCancel(api.base + "/" + api.version + "/people/",
                 q1.id + "?hydrate=stats(group=[" + tail1, q2.id + "?hydrate=stats(group=[" + tail2);
    SplitAt(q1.id, tail1, q2.id, tail2, "?hydrate=stats(group=[");
    SuffixCancel(q1.group, q2.group, "],type=[career])");
  }

  /** The season statistics URL names the player, the statistics group and the season. */
  lemma SeasonStatsUrlInjective(api: Handle, id1: Value, group1: Value, season1: Value,
                                id2: Value, group2: Value, season2: Value)
    requires ValidateSeasonStats(id1, group1, season1).Success?
    requires ValidateSeasonStats(id2, group2, season2).Success?
    requires SeasonStatsUrl(api, ValidateSeasonStats(id1, group1, season1).value)
          == SeasonStatsUrl(api, ValidateSeasonStats(id2, group2, season2).value)
    ensures id1 == id2 && group1 == group2
    ensures ValidateSeasonStats(id1, group1, season1).value.season
         == ValidateSeasonStats(id2, group2, season2).value.season
  {
    var q1 := SeasonStatsAccepted(id1, group1, season1);
    var q2 := SeasonStatsAccepted(id2, group2, season2);
    SeasonArgumentsFromUrl(api, id1, q1, id2, q2);
  }

  lemma SeasonArgumentsFromUrl(api: Handle, id1: Value, q1: StatsQuery, id2: Value, q2: StatsQuery)
    requires IsNumber(id1) && q1.id == NumberText(id1) && IsStatGroup(q1.group) && IsSeason(q1.season)
    requires IsNumber(id2) && q2.id == NumberText(id2) && IsStatGroup(q2.group) && IsSeason(q2.season)
    requires SeasonStatsUrl(api, q1) == SeasonStatsUrl(api, q2)
    ensures id1 == id2 && q1 == q2
  {
    StatGroupHasNoBracket(q1.group);
    StatGroupHasNoBracket(q2.group);
    assert '?' !in q1.id && '?' !in q2.id;
    assert |q1.season| == 4 && |q2.season| == 4;
    SeasonQueryFromUrl(api, q1, q2);
    NumberTextInjective(id1, id2);
  }

  lemma StatGroupHasNoBracket(group: string)
    requires IsStatGroup(group)
    ensures ']' !in group
  {
  }

  /** What an accepted season statistics request is made of. */
  lemma SeasonStatsAccepted(id: Value, group: Value, season: Value) returns (q: StatsQuery)
    requires ValidateSeasonStats(id, group, season).Success?
    ensures q == ValidateSeasonStats(id, group, season).value
    ensures IsNumber(id) && q.id == NumberText(id)
    ensures group == VStr(q.group) && IsStatGroup(q.group)
    ensures IsSeason(q.season)
  {
    q := ValidateSeasonStats(id, group, season).value;
    if !IsNumber(id) || !group.VStr? || !IsStatGroup(group.s) {
      assert false;
    }
  }

  /** The career statistics URL names the player and the statistics group. */
  lemma CareerStatsUrlInjective(api: Handle, id1: Value, group1: Value, id2: Value, group2: Value)
    requires ValidateCareerStats(id1, group1).Success?
    requires ValidateCareerStats(id2, group2).Success?
    requires CareerStatsUrl(api, ValidateCareerStats(id1, group1).value)
          == CareerStatsUrl(api, ValidateCareerStats(id2, group2).value)
    ensures id1 == id2 && group1 == group2
  {
    var q1 := ValidateCareerStats(id1, group1).value;
    var q2 := ValidateCareerStats(id2, group2).value;
    assert q1.id == NumberText(id1) && q2.id == NumberText(id2);
    CareerQueryFromUrl(api, q1, q2);
    NumberTextInjective(id1, id2);
  }

  /** The free agents URL names the season. */
  lemma FreeAgentsUrlInjective(api: Handle, season1: string, season2: string)
    requires FreeAgentsUrl(api, season1) == FreeAgentsUrl(api, season2)
    ensures season1 == season2
  {
    var prefix := api.base + "/" + api.version + "/people/freeAgents?season=";
    assert Endpoint(api, "people/freeAgents?season=" + season1) == prefix + season1;
    assert Endpoint(api, "people/freeAgents?season=" + season2) == prefix + season2;
    PrefixCancel(prefix, season1, season2);
  }

  /** The changes URL names the date's ISO text. */
  lemma ChangesUrlInjective(api: Handle, iso1: string, iso2: string)
    requires ChangesUrl(api, iso1) == ChangesUrl(api, iso2)
    ensures iso1 == iso2
  {
    var prefix := api.base + "/" + api.version + "/people/changes?updatedSince=";
    assert Endpoint(api, "people/changes?updatedSince=" + iso1) == prefix + iso1;
    assert Endpoint(api, "people/changes?updatedSince=" + iso2) == prefix + iso2;
    PrefixCancel(prefix, iso1, iso2);
  }

  /** With the default handle the search asks the public statistics API for the full player list. */
  lemma DefaultPlayersUrl()
    ensures PlayersUrl(DefaultHandle) == "https://statsapi.mlb.com/api/v1/sports/1/players"
  {
  }
}

=== FILE: text.dfy ===
/**
 * The few string operations the player manager relies on: ASCII lower-casing
 * (`toLowerCase`), substring search (`includes`), decimal digits and the
 * decimal rendering of integers used inside template literals.
 */
module Text {

  predicate IsDigit(c: char) {
    '0' <= c <= '9'
  }

  predicate AllDigits(s: string) {
    forall i :: 0 <= i < |s| ==> IsDigit(s[i])
  }

  function DigitValue(c: char): nat
    requires IsDigit(c)
  {
    c as int - '0' as int
  }

  function DigitChar(d: nat): (c: char)
    requires d < 10
    ensures IsDigit(c) && DigitValue(c) == d
  {
    (d + '0' as int) as char
  }

  /** The value of a string of decimal digits, most significant first. */
  function DigitsValue(s: string): nat
    requires AllDigits(s)
  {
    if |s| == 0 then 0 else 10 * DigitsValue(s[..|s| - 1]) + DigitValue(s[|s| - 1])
  }

  /**
   * The canonical decimal text of a natural number: digits only, no leading
   * zero, and it reads back as the same number.
   */
  function NatText(n: nat): (s: string)
    ensures |s| > 0 && AllDigits(s)
    ensures DigitsValue(s) == n
    ensures |s| == 1 || s[0] != '0'
  {
    if n < 10 then [DigitChar(n)]
    else
      var prefix := NatText(n / 10);
      var s := prefix + [DigitChar(n % 10)];
      assert s[..|s| - 1] == prefix;
      s
  }

  /**
   * JavaScript's rendering of an integral number inside a template literal,
   * for magnitudes below 10^21 (from there on JavaScript switches to
   * exponent notation, which this text does not produce).
   */
  function IntText(n: int): (s: string)
    ensures |s| > 0 && '/' !in s && '?' !in s
    ensures n < 0 <==> s[0] == '-'
    ensures n >= 0 ==> AllDigits(s) && DigitsValue(s) == n
    ensures n < 0 ==> AllDigits(s[1..]) && DigitsValue(s[1..]) == -n
  {
    if n < 0 then "-" + NatText(-n) else NatText(n)
  }

  /** `toLowerCase` restricted to ASCII letters. */
  function LowerChar(c: char): char {
    if 'A' <= c <= 'Z' then (c as int + 32) as char else c
  }

  function Lower(s: string): (r: string)
    ensures |r| == |s|
    ensures forall i :: 0 <= i < |s| ==> r[i] == LowerChar(s[i])
  {
    if |s| == 0 then "" else [LowerChar(s[0])] + Lower(s[1..])
  }

  /** `needle` occurs in `hay` starting at position `i`. */
  predicate OccursAt(hay: string, needle: string, i: int) {
    0 <= i && i + |needle| <= |hay| && hay[i..i + |needle|] == needle
  }

  /** `hay.includes(needle)`: some position holds an occurrence. */
  predicate Contains(hay: string, needle: string) {
    exists i | 0 <= i <= |hay| - |needle| :: OccursAt(hay, needle, i)
  }
}

=== FILE: wrappers.dfy ===
/** Option and Result, both usable with the `:-` failure operator. */
module Wrappers {

  /** A value that may be absent. */
  datatype Option<+T> = None | Some(value: T)

  /** Either a computed value or the error that stopped the computation. */
  datatype Result<+T, +E> = Success(value: T) | Failure(error: E) {

    predicate IsFailure() {
      Failure?
    }

    function PropagateFailure<U>(): Result<U, E>
      requires Failure?
    {
      Failure(error)
    }

    function Extract(): T
      requires Success?
    {
      value
    }
  }
}
